=== FILE: README.md ===
# Portfolio static server and page effects, modelled in Dafny

The portfolio is two programs. `server.js` is a small static-file HTTP
server. `app.js` is the page script that animates the site. This project
models the deterministic core of both as pure Dafny functions and proves what
they promise.

**Static server** (`StaticServer`, `Mime`, `NodePath`). A request URL becomes
the candidate path `'.' + url`. The URL "/" alone becomes "./index.html". A
candidate with no extension that is not on disk falls back to the same path
plus ".html" when that file exists. The content type is the fixed table's
entry for the lower-cased `path.extname` of the resolved path, or
`application/octet-stream` when the table has none. The response is:

- 404 with a fixed HTML page when the resolved path does not exist;
- 500 with "Internal Server Error" when it exists but cannot be read;
- 200 with exactly the file's bytes otherwise.

Every response carries six fixed CORS and no-cache headers and an ETag.

The filesystem is a map from path strings to `Readable(bytes)` or
`Unreadable`. `Handle` is a total function from a request, a filesystem and
the ETag value to a `Response`. `NodePath.Extname` is the declarative reading
of Node's POSIX `path.extname`. `NodePath.ExtnameScan` is Node's own
right-to-left scan, and it is proved equal to `Extname` for every input.

**Page effects** (`TextWrap`, `PageEffects`, `Dom`). An element is its class
set, its inline style map, its `data-*` map and its inner HTML, as a record
of its own rather than a node of the document tree. The model
covers five pieces of the script:

- `wrapTextLines`: split on ' ', wrap word *i* in a span with
  `--word-delay: i*50ms`, join with ' ', add `split-text`. Its partner is
  `UnwrapText`, which reads the words back out of the markup.
- The stagger-delay choice `dataset.delay || index * 100` and the `--delay`
  property it sets.
- The navigation-bar threshold (`scrollY > 50`).
- The card hover and leave handlers.
- The reduced-motion handler.

Observations the proofs make explicit:

- Node does not sanitise the path, so "/../secret.txt" is served from outside
  the site directory when it exists (`StaticServer.TraversalIsServed`).
- The ".html" guard does not exclude a URL ending in '/'. Over an arbitrary
  filesystem map, "/blog/" would be answered from "./blog/.html", whose last
  component is the dot-file ".html" with no extension, served as
  `application/octet-stream` (`StaticServer.FallbackContentType`). That needs
  a map holding "./blog/.html" but not "./blog/". On a real disk the
  directory "./blog/" exists whenever "./blog/.html" does, so `existsSync`
  holds for the candidate, no fallback happens, and reading the directory
  gives 500. `StaticServer.DiskLike` states that shape of a disk, and
  `StaticServer.NoFallbackAfterSlash` and `StaticServer.SlashUrlIsNeverServed`
  prove the fallback never fires there.
- A query string is not stripped. "/?x=1" looks up the file "./?x=1"
  (`StaticServer.CandidateIsPrefixedUrl`).

- The index document is substituted only when the URL is exactly "/". The
  URL "" gives the candidate "." (`StaticServer.CandidateIsPrefixedUrl`).
- The 500 response carries no Content-Type header (`StaticServer.Handle`).
- The ETag is `Math.random().toString()`, so nothing guarantees that two
  ETags differ. It is a parameter here (`StaticServer.DistinctETags`).

## Model

| member | source | states |
|---|---|---|
| `StaticServer.Handle` | server.js:26-93 | Every response carries the six fixed headers and the ETag. The status is 200, 404 or 500. It is 404 exactly when the resolved path is absent, with Content-Type text/html and the fixed page. It is 500 exactly when the path is present but unreadable, with no Content-Type and "Internal Server Error". On 200 the body is exactly the file's bytes and the Content-Type is the looked-up type. |
| `StaticServer.CandidatePath` | server.js:36-41 | The candidate always starts with '.', and for every URL but "/" the rest of it is the URL itself. `StaticServer.CandidateIsPrefixedUrl` adds that "./index.html" comes only from "/" and "/index.html". |
| `StaticServer.ResolvePath` | server.js:36-49 | The resolved path is the candidate, or the candidate plus ".html". The second happens only when the candidate has no extension, is absent, and the ".html" path is present. |
| `StaticServer.BaseHeaders` | server.js:27-34 | The starting headers are exactly the six fixed headers with their fixed values plus the ETag. No Content-Type is among them. |
| `StaticServer.CandidateIsPrefixedUrl` | server.js:36-41 | The candidate is "./index.html" exactly when the URL is "/" or "/index.html". Every URL other than "/" is only prefixed with '.', so "/?x=1" becomes "./?x=1". |
| `StaticServer.RootResolvesToIndex` | server.js:39-44 | "/" resolves to "./index.html" whatever is on disk. |
| `StaticServer.IndexHasExtension` | server.js:40-44 | "./index.html" has extension ".html", so the fallback never applies to it. |
| `StaticServer.ExtensionSuppressesFallback` | server.js:44 | A candidate with a non-empty extension is served unchanged, whatever the filesystem holds. |
| `StaticServer.ExactPathWins` | server.js:44 | A candidate that exists is served unchanged, even when it has no extension and its ".html" sibling also exists. |
| `StaticServer.HtmlFallback` | server.js:44-49 | An absent candidate with no extension resolves to its ".html" sibling when that exists. Otherwise it stays unchanged. |
| `StaticServer.ResolvedExistsIff` | server.js:44-59 | The resolved path exists exactly when the candidate exists, or the candidate has no extension and its ".html" sibling exists. The handler answers 404 exactly in the remaining cases. |
| `StaticServer.SiblingExtname` | server.js:45-52 | For a URL other than "/", the ".html" sibling has extension ".html" unless the URL ends in '/'. In that case its last component is the dot-file ".html", which has no extension. This is about the path string alone, whatever the filesystem. |
| `StaticServer.FallbackContentType` | server.js:44-53 | Over any filesystem map, a path reached through the fallback is served as text/html, and after a URL ending in '/' as application/octet-stream. The second case needs a map that holds "./d/.html" without "./d/", which no disk presents. |
| `StaticServer.NoFallbackAfterSlash` | server.js:39-49 | On a disk-like filesystem, where every directory on the way to an entry is itself an unreadable entry, a URL ending in '/' always resolves to its own candidate. |
| `StaticServer.SlashUrlIsNeverServed` | server.js:44-88 | On a disk-like filesystem a URL other than "/" ending in '/' gets 500 when its directory exists and 404 otherwise, never 200. |
| `StaticServer.FallbackIsSibling` | server.js:39-49 | A fallback never happens for "/", and it always lands on the candidate plus ".html". |
| `StaticServer.NotFoundIsFixed` | server.js:56-79 | Any two 404 responses for the same filesystem and ETag are identical, whatever the URLs. The body carries "404 - Page Not Found". |
| `StaticServer.NotFoundPageNamesTitle` | server.js:60-78 | The fixed page holds "404 - Page Not Found" at character 106, inside its title element. |
| `StaticServer.MethodIgnored` | server.js:26-93 | The handler writes identical responses for two requests that differ only in their HTTP method. |
| `StaticServer.DistinctETags` | server.js:34 | Different ETag values give different ETag headers and the same status. |
| `StaticServer.TraversalIsServed` | server.js:36 | "/../secret.txt" is served from "./../secret.txt" when that file exists: the path is not sanitised. |
| `StaticServer.ServesResolved` | server.js:83-91 | Once the path resolves to a readable file, the response is 200 with the content type for that path and exactly its bytes. |
| `StaticServer.PlainNameHasNoExtension` | server.js:44 | A name with no '.' and no '/' after a directory prefix has no extension. |
| `StaticServer.RootServesIndex` | server.js:36-53 | "/" with a readable index document gives 200, text/html and the document's bytes. |
| `StaticServer.ExtensionlessServesHtml` | server.js:44-53 | "/about" gives 200, text/html and the bytes of "about.html" when only that file exists. The same holds for any plain name in place of "about". |
| `StaticServer.MissingIsNotFound` | server.js:56-79 | A URL whose candidate and ".html" sibling are both absent gives 404, text/html and the fixed page naming "404 - Page Not Found". |
| `StaticServer.SuffixSelectsType` | server.js:44-53 | A URL ending in a dotted suffix such as ".css" or ".bin" whose file exists gives 200. The content type is the table entry for the lower-cased suffix, or application/octet-stream. |
| `StaticServer.SuffixResolves` | server.js:44-52 | Such a URL resolves to its own candidate, and the type lookup uses the lower-cased suffix. |
| `Mime.LookupExt` | server.js:53 | The looked-up type is application/octet-stream exactly when the extension is not a table key, and otherwise that key's entry. |
| `Mime.ContentTypeFor` | server.js:52-53 | The content type is always a table value or application/octet-stream. `Mime.ContentTypeIsTableEntry` ties it to the lower-cased extension and `Mime.ContentTypeCaseInsensitive` to its case. |
| `Mime.TableKeysCanonical` | server.js:9-24 | Every table key is a dot followed by lower-case letters or digits. |
| `Mime.TableKeysLowerCase` | server.js:9-24 | Every table key is its own lower-case form, so a lower-cased extension can match it. |
| `Mime.FallbackNotInTable` | server.js:9-24 | application/octet-stream is not a table value, so the fallback is recognisable. |
| `Mime.ContentTypeIsTableEntry` | server.js:52-53 | The content type is the table entry for the lower-cased extension. It is application/octet-stream exactly when that extension is not a key. |
| `Mime.HtmlIsTextHtml` | server.js:10 | A path with extension ".html" is served as text/html. |
| `Mime.NoExtensionIsFallback` | server.js:52-53 | A path with no extension is served as application/octet-stream. |
| `Mime.ContentTypeCaseInsensitive` | server.js:52 | Paths whose extensions differ only in ASCII case get the same content type, so ".PNG" and ".png" both give image/png. |
| `Mime.KnownExtensionServed` | server.js:52-53 | A file named stem plus a table key, spelled in any mix of cases, is served with that key's content type. |
| `NodePath.Extname` | server.js:52 | A non-empty extension starts with '.' and holds no other dot. `NodePath.ExtnameScan` proves it equal to Node's own scan, and `NodePath.ExtnameShape` places it at the end of the last component. |
| `NodePath.ExtnameScan` | server.js:44 | Node's right-to-left scan for `path.extname`, with its state variables. It returns exactly the declarative extension for every path. |
| `NodePath.ExtnameShape` | server.js:52 | A non-empty extension is a proper suffix of the last component. It starts with that component's last dot, holds no other dot and no '/'. |
| `NodePath.ExtnameEmpty` | server.js:44 | The extension is empty exactly in three cases: the last component has no dot, its only dot is its first character, or it is "..". |
| `NodePath.ExtnameOfAppended` | server.js:45 | Appending a dotted suffix such as ".html" to a path that does not end in '/' makes that suffix the path's extension. |
| `Strings.Split` | app.js:188 | `split(' ')` gives one piece more than there are separators, and no piece holds a separator. `Strings.JoinSplit` is its inverse. |
| `Strings.Join` | app.js:191 | `join(' ')` starts with the first piece and, when there is a second, puts the separator right after the first. `Strings.SplitJoin` is its inverse on separator-free pieces. |
| `Strings.JoinSplit` | app.js:188-191 | Joining the pieces of a split on a character gives the original string back. |
| `Strings.SplitJoin` | app.js:188-191 | Splitting a join of separator-free pieces gives the pieces back. |
| `Strings.DecimalRoundTrip` | app.js:190 | The decimal text a template literal renders for a non-negative integer reads back as that integer. |
| `Strings.DigitPrefixOfDigits` | app.js:190 | A run of digits followed by a non-digit, such as the "m" of "ms", has exactly that run as its digit prefix. |
| `TextWrap.Span` | app.js:189-190 | The template literal for word *i*. `TextWrap.SpanCarriesDelay` reads back its delay *i*·50, and `TextWrap.SpansOfText` shows it holds the word unchanged. |
| `TextWrap.WrapText` | app.js:188-191 | The new inner HTML. `TextWrap.UnwrapWrap` reads the text back out of it, and `TextWrap.WrapTextSpaces` counts its spaces. |
| `TextWrap.WrapTextLines` | app.js:186-195 | The element gains `split-text` and keeps its other classes, style and dataset. Its new inner HTML unwraps to exactly the old text. It has four spaces per original space plus three. |
| `TextWrap.SpansOfText` | app.js:187-191 | There is one span per element of `text.split(' ')`, as many as the spaces plus one. Span *i* holds word *i* unchanged. |
| `TextWrap.SpanCarriesDelay` | app.js:189-190 | The span for word *i* sets `--word-delay` to *i*·50 milliseconds. |
| `TextWrap.WrappedDelaysIncrease` | app.js:189-190 | The word delays strictly increase with the word's index. |
| `TextWrap.UnwrapWrap` | app.js:187-193 | Unwrapping the wrapped text gives the text back: every word survives, unchanged and in order. |
| `TextWrap.WrapTextSpaces` | app.js:188-191 | The wrapped text has exactly 4·(spaces in the text) + 3 spaces. |
| `PageEffects.UpdateNavbar` | app.js:64-71 | Afterwards `nav-scrolled` is present exactly when scrollY > 50. No other class, style or data attribute changes. |
| `PageEffects.NavbarLastScrollWins` | app.js:64-71 | Two updates in a row give the state of the second alone. |
| `PageEffects.NavbarIdempotent` | app.js:64-71 | Applying the update twice with the same scrollY gives the same element. |
| `PageEffects.CardHover` | app.js:138-140 | `card-hovered` is added and no other class, style or data attribute changes. |
| `PageEffects.CardLeave` | app.js:142-145 | `card-hovered` is removed and the inline transform is cleared. No other class or style property changes. |
| `PageEffects.HoverThenLeaveRestores` | app.js:138-145 | Hover, any tilt transform, then leave restores a card that had neither the class nor a transform. |
| `PageEffects.StaggerDelay` | app.js:35 | The delay is the `data-delay` text exactly when that attribute is present and non-empty. Otherwise it is index·100 milliseconds. |
| `PageEffects.DelayProperty` | app.js:36 | The `--delay` text always ends in "ms". Before that suffix it is the `data-delay` text verbatim, or the decimal digits that read back as the staggered milliseconds. |
| `PageEffects.Reveal` | app.js:35-40 | A revealed entry has `is-visible` once its timer has fired, and no other class changes. Its inline style gains exactly the key `--delay`; every other property keeps its value. Data attributes and inner HTML are unchanged. |
| `PageEffects.StaggeredPropertyReadsBack` | app.js:35-36 | Without a usable `data-delay`, the `--delay` text of entry *i* reads back as *i*·100 milliseconds. |
| `PageEffects.DataDelayIsKept` | app.js:35-36 | A non-empty `data-delay` is copied into `--delay` verbatim with "ms" appended. |
| `PageEffects.StaggeredDelaysIncrease` | app.js:32-36 | Within one batch, entries whose `data-delay` is absent or empty get delays 100 milliseconds apart per index step, in index order. |
| `PageEffects.HandleReducedMotion` | app.js:198-209 | Under reduced motion the body gains `reduced-motion` and every `[data-anim]` element has `is-visible`. No other class changes, and the style, data attributes and inner HTML of the body and of every element are kept, each element read as a record of its own. Without reduced motion nothing changes. |
| `PageEffects.ShowAnimated` | app.js:204-207 | Every `[data-anim]` element has `is-visible` afterwards, and no element gains or loses any other class. Style, data attributes and inner HTML are kept, each element read as a record of its own. Elements without `data-anim` are unchanged. Order and count are kept. |
| `PageEffects.ReducedMotionIdempotent` | app.js:198-209 | Handling reduced motion a second time changes nothing. |
| `Dom.AddClass` | app.js:139 | `classList.add`: the class set gains exactly that class, and style, data attributes and inner HTML are kept. |
| `Dom.RemoveClass` | app.js:143 | `classList.remove`: the class set loses exactly that class, and style, data attributes and inner HTML are kept. |
| `Dom.RemoveUndoesAdd` | app.js:139-143 | Adding then removing an absent class restores the element. |

## Left out

- Listening, console logging and the SIGTERM shutdown (server.js:96-108) are process I/O. They have no effect on responses.
- The ETag value `Math.random().toString()` (server.js:34) is random. It is the `etag` parameter of `Handle`.
- Races with other processes changing the disk are timing. One filesystem snapshot answers both `existsSync` calls (server.js:44, server.js:46), `fs.access` (server.js:56) and `fs.readFile` (server.js:83). A file removed between `fs.access` and `fs.readFile` is modelled as `Unreadable`, which gives the 500 the server sends. Directories and permission failures are `Unreadable` too. A fallback target removed between line 46 and line 56 would get a 404 from the server; the model does not produce that response, and `StaticServer.ResolvedExistsIff` holds only of a single snapshot.
- Node's HTTP layer drops the body of a response to HEAD and never calls the handler for CONNECT. Neither is modelled: `StaticServer.MethodIgnored` is about what the handler writes.
- The operating system's path resolution is not modelled. The filesystem map is keyed by the exact string the server passes. "./a/../b" and "./b" are different keys even though the kernel would open the same file.
- Node's `path` module is not part of this model. `NodePath` follows the POSIX `path.extname` algorithm and its documented results. The Windows variant is left out.
- Mime.ContentTypeFor: lower-cases ASCII letters only, where `toLowerCase` follows full Unicode. Every table key is a dot plus ASCII lower-case letters and digits. Only the Kelvin sign (U+212A) and the dotted capital I (U+0130) lower-case into ASCII ('k' and "i̇"), and neither can complete a key. So the table lookup gives the same result.
- HTTP framing, reason phrases and header-name case-insensitivity are left out. The response is a status, a header map with the names as written, and a body. The `'utf-8'` argument of `res.end` has no effect on a Buffer body.
- The IntersectionObserver, `requestAnimationFrame` ticking, listener wiring, `unobserve` and `setTimeout` (app.js:31-55, app.js:77-82, app.js:105-110) are browser runtime and timing. `PageEffects.Reveal` gives an entry's state after its timer has fired. A non-numeric `data-delay` makes the timer fire at once, which is not modelled.
- The document tree is not modelled. A `Dom.Element` is an independent record, and an element's inner HTML is the string last assigned to it. In a browser, reading `innerHTML` serialises the descendants, their `class` attributes included, so an ancestor's inner HTML changes whenever a class is added below it.
- PageEffects.HandleReducedMotion: holds every inner HTML fixed, including the body's, although `document.body.innerHTML` changes as its `[data-anim]` descendants gain `is-visible` (app.js:206). The body is taken not to carry `data-anim` itself; if it did, it would be both the returned body and an entry of the returned elements, and the model would return two different copies of one node.
- PageEffects.ShowAnimated: holds every element's inner HTML fixed, although an element with a `[data-anim]` descendant has its serialised inner HTML change when that descendant gains `is-visible`. The elements are taken to be independent records, none inside another.
- The `--i` style property set on every observed element (app.js:52-55) is observer wiring and is not modelled.
- `splitHeroText` (app.js:174-184) only applies `wrapTextLines` to up to three selected elements. It is not modelled separately.
- TextWrap.WrapTextLines: treats `innerHTML` as the string last assigned. The browser's HTML parse and re-serialisation of the new markup is not modelled. Neither is an inner HTML that already contains tags with spaces, which the split cuts through.
- Parallax and card tilt (app.js:93-103, app.js:147-162) are floating-point presentation code. `handleCardMove`'s transform appears only as an arbitrary string in `PageEffects.HoverThenLeaveRestores`.
- The button hover handlers (app.js:165-171), the `floating` class on the profile photo (app.js:116-119) and the form's floating labels (app.js:238-252) are class toggles outside the modelled handlers.
- `debounce` (app.js:213-225) and the simulated form submission (app.js:254-277) are timer-driven UI.

=== FILE: dom.dfy ===
/** The slice of a DOM element the page script reads and writes: its class
    list, its inline style properties, its `data-*` attributes and its inner
    HTML. A class list is a set: `classList.add` of a present class and
    `classList.remove` of an absent one change nothing. */
module Dom {

  datatype Element = Element(
    classes: set<string>,
    style: map<string, string>,
    dataset: map<string, string>,
    innerHtml: string)

  /** `el.classList.add(c)`. */
  function AddClass(el: Element, c: string): (r: Element)
    ensures r.classes == el.classes + {c}
    ensures r.style == el.style && r.dataset == el.dataset && r.innerHtml == el.innerHtml
  {
    el.(classes := el.classes + {c})
  }

  /** `el.classList.remove(c)`. */
  function RemoveClass(el: Element, c: string): (r: Element)
    ensures r.classes == el.classes - {c}
    ensures r.style == el.style && r.dataset == el.dataset && r.innerHtml == el.innerHtml
  {
    el.(classes := el.classes - {c})
  }

  /** Adding then removing a class that was absent restores the element. */
  lemma RemoveUndoesAdd(el: Element, c: string)
    requires c !in el.classes
    ensures RemoveClass(AddClass(el, c), c) == el
  {
  }
}

=== FILE: mime.dfy ===
/** The server's fixed extension-to-content-type table and the lookup
    `mimeTypes[ext.toLowerCase()] || 'application/octet-stream'`. */
module Mime {
  import opened Strings
  import NodePath

  /** `mimeTypes` in server.js, keyed by lower-case extension with its dot. */
  const Table: map<string, string> := map[
    ".html" := "text/html",
    ".css" := "text/css",
    ".js" := "text/javascript",
    ".json" := "application/json",
    ".png" := "image/png",
    ".jpg" := "image/jpeg",
    ".jpeg" := "image/jpeg",
    ".gif" := "image/gif",
    ".svg" := "image/svg+xml",
    ".ico" := "image/x-icon",
    ".woff" := "font/woff",
    ".woff2" := "font/woff2",
    ".ttf" := "font/ttf",
    ".eot" := "application/vnd.ms-fontobject"
  ]

  /** The content type of anything the table does not know. */
  const Fallback: string := "application/octet-stream"

  /** `mimeTypes[ext] || Fallback`. Every table value is a non-empty string,
      so `||` falls back exactly when the key is missing; every key starts with
      '.', so no property inherited from `Object.prototype` can match. */
  function LookupExt(ext: string): (t: string)
    ensures t == Fallback <==> ext !in Table
    ensures ext in Table ==> t == Table[ext]
  {
    if ext in Table then Table[ext] else Fallback
  }

  /** The content type the server sends for a resolved path. */
  function ContentTypeFor(path: string): (t: string)
    ensures t == Fallback || t in Table.Values
  {
    LookupExt(Lower(NodePath.Extname(path)))
  }

  /** Every key is a dot followed by lower-case letters or digits, so every
      key is its own lower-case form and can be an extension. */
  lemma TableKeysCanonical(k: string)
    requires k in Table
    ensures |k| >= 2 && k[0] == '.'
    ensures forall j :: 1 <= j < |k| ==> 'a' <= k[j] <= 'z' || '0' <= k[j] <= '9'
  {
  }

  /** Every key is its own lower-case form. */
  lemma TableKeysLowerCase(k: string)
    requires k in Table
    ensures Lower(k) == k
  {
    TableKeysCanonical(k);
    LowerRemovesUpper(k);
  }

  /** The fallback is not one of the table's values, so a caller can tell a
      known extension from an unknown one by the content type alone. */
  lemma FallbackNotInTable()
    ensures Fallback !in Table.Values
  {
  }

  /** The content type is the table entry of the lower-cased extension, and
      the fallback exactly when that lower-cased extension is not a key. */
  lemma ContentTypeIsTableEntry(path: string)
    ensures var ext := Lower(NodePath.Extname(path));
      && (ext in Table ==> ContentTypeFor(path) == Table[ext])
      && (ContentTypeFor(path) == Fallback <==> ext !in Table)
  {
    FallbackNotInTable();
  }

  /** A path with extension ".html" is served as text/html. */
  lemma HtmlIsTextHtml(path: string)
    requires NodePath.Extname(path) == ".html"
    ensures ContentTypeFor(path) == "text/html"
  {
    TableKeysLowerCase(".html");
    assert Lower(NodePath.Extname(path)) == ".html";
    LoweredHtmlIsTextHtml(path);
  }

  lemma LoweredHtmlIsTextHtml(path: string)
    requires Lower(NodePath.Extname(path)) == ".html"
    ensures ContentTypeFor(path) == "text/html"
  {
    HtmlEntry();
  }

  lemma HtmlEntry()
    ensures LookupExt(".html") == "text/html"
  {
  }

  /** A path without an extension is served as application/octet-stream. */
  lemma NoExtensionIsFallback(path: string)
    requires NodePath.Extname(path) == ""
    ensures ContentTypeFor(path) == Fallback
  {
    assert Lower(NodePath.Extname(path)) == "";
    EmptyExtNotInTable();
  }

  lemma EmptyExtNotInTable()
    ensures LookupExt("") == Fallback
  {
  }

  /** Paths whose extensions differ only in ASCII case get the same content
      type: ".PNG", ".Png" and ".png" are all image/png. */
  lemma ContentTypeCaseInsensitive(p: string, q: string)
    requires Lower(NodePath.Extname(p)) == Lower(NodePath.Extname(q))
    ensures ContentTypeFor(p) == ContentTypeFor(q)
  {
  }

  /** A file named `stem + ext`, where `ext` spells a table key in any mix of
      cases, is served with that key's content type. */
  lemma KnownExtensionServed(stem: string, ext: string, key: string)
    requires key in Table && Lower(ext) == key
    requires |stem| > 0 && stem[|stem| - 1] != '/'
    ensures ContentTypeFor(stem + ext) == Table[key]
  {
    TableKeysCanonical(key);
    assert ext[0] == '.' by { LowerKeepsNonLetters(ext, 0, '.'); }
    assert NodePath.Avoids(ext, 1, |ext|, '.') by {
      forall j | 1 <= j < |ext| ensures ext[j] != '.' {
        LowerKeepsNonLetters(ext, j, '.');
      }
    }
    assert NodePath.Avoids(ext, 0, |ext|, '/') by {
      forall j | 0 <= j < |ext| ensures ext[j] != '/' {
        LowerKeepsNonLetters(ext, j, '/');
      }
    }
    NodePath.ExtnameOfAppended(stem, ext);
  }
}

=== FILE: node_path.dfy ===
/** The part of Node's POSIX `path` module the server uses: `path.extname`.

    `Extname` is the declarative reading: strip trailing slashes, take the
    last path component, and return the suffix that starts at its last dot,
    unless there is no dot, the dot opens the component (".bashrc"), or the
    component is "..". `ExtnameScan` is Node's own right-to-left scan with its
    `startDot`/`startPart`/`end`/`preDotState` bookkeeping, proved to agree. */
module NodePath {
  import opened Wrappers

  /** Every character of `s` from index `lo` on is '/'. */
  predicate SlashesFrom(s: string, lo: int)
    requires 0 <= lo
  {
    forall k :: lo <= k < |s| ==> s[k] == '/'
  }

  /** No character of `s[lo..hi]` equals `c`. */
  predicate Avoids(s: string, lo: int, hi: int, c: char)
    requires 0 <= lo && hi <= |s|
  {
    forall k :: lo <= k < hi ==> s[k] != c
  }

  /** `p` without its trailing run of '/'. */
  function TrimTrailingSlashes(p: string): (r: string)
    ensures r <= p
    ensures |r| == 0 || p[|r| - 1] != '/'
    ensures SlashesFrom(p, |r|)
    decreases |p|
  {
    if |p| > 0 && p[|p| - 1] == '/' then TrimTrailingSlashes(p[..|p| - 1]) else p
  }

  /** `r` is the part of `q` after its last '/'. */
  predicate IsLastSegment(q: string, r: string)
  {
    && |r| <= |q| && r == q[|q| - |r|..]
    && Avoids(q, |q| - |r|, |q|, '/')
    && (|r| < |q| ==> q[|q| - |r| - 1] == '/')
  }

  /** The suffix of `q` after its last '/' (all of `q` when it has none). */
  function LastSegment(q: string): (r: string)
    ensures IsLastSegment(q, r)
    decreases |q|
  {
    if |q| == 0 || q[|q| - 1] == '/' then ""
    else
      var r0 := LastSegment(q[..|q| - 1]);
      SegmentGrows(q, r0);
      r0 + [q[|q| - 1]]
  }

  /** A component followed by one more non-slash character. */
  lemma SegmentGrows(q: string, r0: string)
    requires |q| > 0 && q[|q| - 1] != '/'
    requires IsLastSegment(q[..|q| - 1], r0)
    ensures IsLastSegment(q, r0 + [q[|q| - 1]])
  {
    var init := q[..|q| - 1];
    var start := |init| - |r0|;
    assert init[start..] == q[start..|q| - 1];
    assert q[start..] == q[start..|q| - 1] + [q[|q| - 1]];
    forall k | start <= k < |q| ensures q[k] != '/' {
      if k < |q| - 1 {
        assert q[k] == init[k];
      }
    }
    if start > 0 {
      assert q[start - 1] == init[start - 1];
    }
  }

  /** The last path component, ignoring trailing slashes. */
  function Basename(p: string): string
  {
    LastSegment(TrimTrailingSlashes(p))
  }

  /** The position of the last '.' in `b`. */
  function LastDot(b: string): (r: Option<nat>)
    ensures r.None? <==> Avoids(b, 0, |b|, '.')
    ensures r.Some? ==> r.value < |b| && b[r.value] == '.' && Avoids(b, r.value + 1, |b|, '.')
    decreases |b|
  {
    if |b| == 0 then None
    else if b[|b| - 1] == '.' then Some(|b| - 1)
    else LastDot(b[..|b| - 1])
  }

  /** `path.extname(p)`: the extension of the last component, dot included,
      or "" when that component has no extension. */
  function Extname(p: string): (ext: string)
    ensures ext != "" ==> ext[0] == '.' && Avoids(ext, 1, |ext|, '.')
  {
    ComponentExt(Basename(p))
  }

  /** A non-empty extension is a proper suffix of the last component that
      starts with its only dot and holds no slash. */
  lemma ExtnameShape(p: string)
    ensures var ext := Extname(p); var b := Basename(p);
      && |ext| <= |b| && ext == b[|b| - |ext|..]
      && (ext == "" || (ext[0] == '.' && Avoids(ext, 1, |ext|, '.') && Avoids(ext, 0, |ext|, '/')
                        && |ext| < |b| && b != ".."))
  {
    var b := Basename(p);
    BasenameHasNoSlash(p);
    ComponentExtShape(b);
  }

  lemma BasenameHasNoSlash(p: string)
    ensures Avoids(Basename(p), 0, |Basename(p)|, '/')
  {
    var q := TrimTrailingSlashes(p);
    var b := LastSegment(q);
    assert IsLastSegment(q, b);
    forall k | 0 <= k < |b| ensures b[k] != '/' {
      assert b[k] == q[|q| - |b| + k];
    }
  }

  lemma ComponentExtShape(b: string)
    ensures var ext := ComponentExt(b);
      && |ext| <= |b| && ext == b[|b| - |ext|..]
      && (ext == "" || (ext[0] == '.' && Avoids(ext, 1, |ext|, '.') && |ext| < |b| && b != ".."))
      && (Avoids(b, 0, |b|, '/') ==> Avoids(ext, 0, |ext|, '/'))
  {
    var ext := ComponentExt(b);
    if ext != "" {
      var d := LastDot(b).value;
      assert forall k :: 0 <= k < |ext| ==> ext[k] == b[d + k];
    }
  }

  /** The extension of a single path component `b`. */
  function ComponentExt(b: string): string
  {
    if b == ".." then ""
    else
      match LastDot(b)
      case None => ""
      case Some(d) => if d == 0 then "" else b[d..]
  }

  /** The extension is empty exactly when the last component has no dot,
      has its only dot in front, or is "..". */
  lemma ExtnameEmpty(p: string)
    ensures var b := Basename(p);
      Extname(p) == "" <==>
        (Avoids(b, 0, |b|, '.') || (b[0] == '.' && Avoids(b, 1, |b|, '.')) || b == "..")
  {
  }

  /** A non-slash (or nothing) at `e - 1` followed only by slashes fixes
      `TrimTrailingSlashes`. */
  lemma TrimAt(p: string, e: nat)
    requires e <= |p|
    requires e == 0 || p[e - 1] != '/'
    requires SlashesFrom(p, e)
    ensures TrimTrailingSlashes(p) == p[..e]
  {
  }

  /** A slash (or nothing) at `s - 1` followed by no slash fixes `LastSegment`. */
  lemma LastSegmentAt(q: string, s: nat)
    requires s <= |q|
    requires s == 0 || q[s - 1] == '/'
    requires Avoids(q, s, |q|, '/')
    ensures LastSegment(q) == q[s..]
  {
  }

  /** A dot at `d` followed by no dot fixes `LastDot`. */
  lemma LastDotAt(b: string, d: nat)
    requires d < |b| && b[d] == '.'
    requires Avoids(b, d + 1, |b|, '.')
    ensures LastDot(b) == Some(d)
  {
  }

  /** `path.extname` exactly as Node computes it, scanning from the right. */
  method ExtnameScan(path: string) returns (ext: string)
    ensures ext == Extname(path)
  {
    var startDot := -1;
    var startPart := 0;
    var end := -1;
    var matchedSlash := true;
    // 0: nothing seen left of the last dot; 1: last char seen was a dot; -1: a non-dot
    var preDotState := 0;
    var i := |path| - 1;
    while i >= 0
      invariant -1 <= i < |path|
      invariant matchedSlash <==> end == -1
      invariant startPart == 0
      invariant end == -1 ==> SlashesFrom(path, i + 1) && startDot == -1 && preDotState == 0
      invariant end != -1 ==>
        i + 1 < end <= |path| && path[end - 1] != '/' && SlashesFrom(path, end)
        && Avoids(path, i + 1, end, '/')
      invariant end != -1 && startDot == -1 ==> Avoids(path, i + 1, end, '.') && preDotState == 0
      invariant startDot != -1 ==>
        end != -1 && i + 1 <= startDot < end && path[startDot] == '.'
        && Avoids(path, startDot + 1, end, '.')
      invariant startDot != -1 && startDot == i + 1 ==> preDotState == 0
      invariant startDot != -1 && startDot > i + 1 ==>
        preDotState == (if path[i + 1] == '.' then 1 else -1)
      decreases i
    {
      var c := path[i];
      if c == '/' {
        if !matchedSlash {
          startPart := i + 1;
          break;
        }
      } else {
        if end == -1 {
          matchedSlash := false;
          end := i + 1;
        }
        if c == '.' {
          if startDot == -1 {
            startDot := i;
          } else if preDotState != 1 {
            preDotState := 1;
          }
        } else if startDot != -1 {
          preDotState := -1;
        }
      }
      i := i - 1;
    }
    if startDot == -1 || end == -1 || preDotState == 0
      || (preDotState == 1 && startDot == end - 1 && startDot == startPart + 1)
    {
      ext := "";
    } else {
      ext := path[startDot..end];
    }
    if end == -1 {
      TrimAt(path, 0);
    } else {
      ScanAgrees(path, startPart, end, startDot, preDotState);
    }
  }

  /** The last component of `path` is `path[startPart..end]` when a slash
      (or the start) precedes it, it holds no slash, and only slashes follow. */
  lemma BasenameAt(path: string, startPart: int, end: int)
    requires 0 <= startPart < end <= |path|
    requires startPart == 0 || path[startPart - 1] == '/'
    requires path[end - 1] != '/' && SlashesFrom(path, end) && Avoids(path, startPart, end, '/')
    ensures Basename(path) == path[startPart..end]
  {
    TrimAt(path, end);
    LastSegmentAt(path[..end], startPart);
    assert path[..end][startPart..] == path[startPart..end];
  }

  /** Once the scan has found a component `b`, the position `d` of its last
      dot (-1 when none) and its `preDotState`, the verdict it draws is the
      component's extension. */
  lemma ScanVerdict(b: string, d: int, preDotState: int)
    requires |b| >= 1
    requires d == -1 ==> Avoids(b, 0, |b|, '.') && preDotState == 0
    requires d != -1 ==> 0 <= d < |b| && b[d] == '.' && Avoids(b, d + 1, |b|, '.')
    requires d == 0 ==> preDotState == 0
    requires d > 0 ==> preDotState == (if b[0] == '.' then 1 else -1)
    ensures ComponentExt(b) ==
      if d == -1 || preDotState == 0 || (preDotState == 1 && d == |b| - 1 && d == 1)
      then "" else b[d..]
  {
    if d != -1 {
      LastDotAt(b, d);
      if b == ".." {
        assert d == 1;
      }
    }
  }

  /** What the scan's bookkeeping says about `path`, once it has found a
      last component, decides `Extname(path)`. */
  lemma ScanAgrees(path: string, startPart: int, end: int, startDot: int, preDotState: int)
    requires 0 <= startPart < end <= |path|
    requires startPart == 0 || path[startPart - 1] == '/'
    requires path[end - 1] != '/' && SlashesFrom(path, end) && Avoids(path, startPart, end, '/')
    requires startDot == -1 ==> Avoids(path, startPart, end, '.') && preDotState == 0
    requires startDot != -1 ==>
      startPart <= startDot < end && path[startDot] == '.' && Avoids(path, startDot + 1, end, '.')
    requires startDot == startPart ==> preDotState == 0
    requires startDot > startPart ==> preDotState == (if path[startPart] == '.' then 1 else -1)
    ensures Extname(path) ==
      if startDot == -1 || preDotState == 0
        || (preDotState == 1 && startDot == end - 1 && startDot == startPart + 1)
      then "" else path[startDot..end]
  {
    BasenameAt(path, startPart, end);
    var b := path[startPart..end];
    assert Extname(path) == ComponentExt(b);
    if startDot == -1 {
      ComponentWithoutDot(path, startPart, end);
    } else {
      ComponentWithDot(path, startPart, end, startDot, preDotState);
    }
  }

  lemma ComponentWithoutDot(path: string, startPart: int, end: int)
    requires 0 <= startPart < end <= |path|
    requires Avoids(path, startPart, end, '.')
    ensures ComponentExt(path[startPart..end]) == ""
  {
    var b := path[startPart..end];
    assert Avoids(b, 0, |b|, '.') by {
      forall k | 0 <= k < |b| ensures b[k] != '.' {
        assert b[k] == path[startPart + k];
      }
    }
    ScanVerdict(b, -1, 0);
  }

  lemma ComponentWithDot(path: string, startPart: int, end: int, startDot: int, preDotState: int)
    requires 0 <= startPart <= startDot < end <= |path|
    requires path[startDot] == '.' && Avoids(path, startDot + 1, end, '.')
    requires startDot == startPart ==> preDotState == 0
    requires startDot > startPart ==> preDotState == (if path[startPart] == '.' then 1 else -1)
    ensures ComponentExt(path[startPart..end]) ==
      if preDotState == 0 || (preDotState == 1 && startDot == end - 1 && startDot == startPart + 1)
      then "" else path[startDot..end]
  {
    var b := path[startPart..end];
    var d := startDot - startPart;
    assert Avoids(b, d + 1, |b|, '.') by {
      forall k | d + 1 <= k < |b| ensures b[k] != '.' {
        assert b[k] == path[startPart + k];
      }
    }
    assert b[d] == '.';
    assert b[0] == path[startPart];
    ScanVerdict(b, d, preDotState);
    assert b[d..] == path[startDot..end];
  }

  /** Appending a dotted suffix such as ".html" to a path that does not end
      in '/' makes that suffix the path's extension. */
  lemma ExtnameOfAppended(q: string, e: string)
    requires |q| > 0 && q[|q| - 1] != '/'
    requires |e| >= 2 && e[0] == '.' && Avoids(e, 1, |e|, '.') && Avoids(e, 0, |e|, '/')
    ensures Extname(q + e) == e
  {
    var p := q + e;
    TrimAt(p, |p|);
    assert p[..|p|] == p;
    var s := |q| - |LastSegment(q)|;
    assert p[s..] == LastSegment(q) + e;
    LastSegmentAt(p, s);
    var b := LastSegment(q) + e;
    assert Basename(p) == b;
    var d := |LastSegment(q)|;
    LastDotAt(b, d);
    assert b[d..] == e;
  }
}

=== FILE: page_effects.dfy ===
/** The class-list and inline-style updates of the page script, with the
    browser plumbing (observers, animation frames, listeners, timers) taken
    away: each handler is a function from the elements it touches to their
    new state. An element carries `data-anim` exactly when "anim" is a key of
    its dataset, and its `data-delay` is `dataset["delay"]`. */
module PageEffects {
  import opened Strings
  import opened Wrappers
  import opened Dom

  const NavScrolled: string := "nav-scrolled"
  const CardHovered: string := "card-hovered"
  const IsVisible: string := "is-visible"
  const ReducedMotion: string := "reduced-motion"

  /** Scroll offset, in pixels, beyond which the navigation bar is compact. */
  const NavThreshold: real := 50.0

  /** Milliseconds between consecutive entries revealed in one batch. */
  const StaggerStep: nat := 100

  // ---------------------------------------------------------------------
  // Navigation bar

  /** `updateNavbar` for the current `window.scrollY`. */
  function UpdateNavbar(nav: Element, scrollY: real): (r: Element)
    ensures NavScrolled in r.classes <==> scrollY > NavThreshold
    ensures r.classes - {NavScrolled} == nav.classes - {NavScrolled}
    ensures r.style == nav.style && r.dataset == nav.dataset && r.innerHtml == nav.innerHtml
  {
    if scrollY > NavThreshold then AddClass(nav, NavScrolled) else RemoveClass(nav, NavScrolled)
  }

  /** The navigation bar's state depends only on the latest scroll offset:
      an earlier update is overwritten, and repeating one changes nothing. */
  lemma NavbarLastScrollWins(nav: Element, y1: real, y2: real)
    ensures UpdateNavbar(UpdateNavbar(nav, y1), y2) == UpdateNavbar(nav, y2)
  {
    var a := UpdateNavbar(UpdateNavbar(nav, y1), y2);
    var b := UpdateNavbar(nav, y2);
    assert a.classes == b.classes by {
      forall c | c in a.classes || c in b.classes ensures c in a.classes <==> c in b.classes {
        if c != NavScrolled {
          assert c in a.classes <==> c in a.classes - {NavScrolled};
          assert c in b.classes <==> c in b.classes - {NavScrolled};
        }
      }
    }
  }

  lemma NavbarIdempotent(nav: Element, scrollY: real)
    ensures UpdateNavbar(UpdateNavbar(nav, scrollY), scrollY) == UpdateNavbar(nav, scrollY)
  {
    NavbarLastScrollWins(nav, scrollY, scrollY);
  }

  // ---------------------------------------------------------------------
  // Card hover

  /** `handleCardHover`. */
  function CardHover(card: Element): (r: Element)
    ensures CardHovered in r.classes
    ensures r.classes - {CardHovered} == card.classes - {CardHovered}
    ensures r.style == card.style && r.dataset == card.dataset && r.innerHtml == card.innerHtml
  {
    AddClass(card, CardHovered)
  }

  /** `handleCardLeave`: the class goes and the inline transform is cleared.
      Assigning '' to a style property removes the declaration, so the
      property leaves the inline style map. */
  function CardLeave(card: Element): (r: Element)
    ensures CardHovered !in r.classes
    ensures r.classes - {CardHovered} == card.classes - {CardHovered}
    ensures "transform" !in r.style
    ensures forall p :: p in card.style && p != "transform" ==> p in r.style && r.style[p] == card.style[p]
    ensures forall p :: p in r.style ==> p in card.style
    ensures r.dataset == card.dataset && r.innerHtml == card.innerHtml
  {
    RemoveClass(card, CardHovered).(style := card.style - {"transform"})
  }

  /** Hovering and leaving a card that carried neither the class nor an
      inline transform leaves it as it was, whatever the tilt did between. */
  lemma HoverThenLeaveRestores(card: Element, tilt: string)
    requires CardHovered !in card.classes && "transform" !in card.style
    ensures CardLeave(CardHover(card).(style := CardHover(card).style["transform" := tilt])) == card
  {
    var hovered := CardHover(card);
    var tilted := hovered.(style := hovered.style["transform" := tilt]);
    var left := CardLeave(tilted);
    assert left.classes == card.classes;
    assert left.style == card.style;
  }

  // ---------------------------------------------------------------------
  // Staggered reveal

  /** The delay chosen for a revealed element: its `data-delay` text when
      that is present and non-empty, otherwise its index in the batch of
      entries times 100 milliseconds. */
  datatype Delay = FromData(text: string) | Staggered(ms: nat)

  /** `entry.target.dataset.delay || index * 100`. An absent attribute
      reads as undefined and an empty one as "", both falsy; any other
      string, "0" included, is truthy and is kept as written. */
  function StaggerDelay(dataset: map<string, string>, index: nat): (d: Delay)
    ensures d.FromData? <==> "delay" in dataset && |dataset["delay"]| > 0
    ensures d.FromData? ==> d.text == dataset["delay"]
    ensures d.Staggered? ==> d.ms == index * StaggerStep
  {
    if "delay" in dataset && dataset["delay"] != "" then FromData(dataset["delay"])
    else Staggered(index * StaggerStep)
  }

  /** The text of the `--delay` property: `${delay}ms`. */
  function DelayProperty(d: Delay): (p: string)
    ensures |p| >= 2 && p[|p| - 2..] == "ms"
    ensures d.FromData? ==> p[..|p| - 2] == d.text
    ensures d.Staggered? ==> DelayMs(p) == Some(d.ms)
  {
    match d
    case FromData(text) => text + "ms"
    case Staggered(ms) =>
      var p := NatToDecimal(ms) + "ms";
      DigitPrefixOfDigits(NatToDecimal(ms), "ms");
      assert p[|NatToDecimal(ms)|..] == "ms";
      DecimalRoundTrip(ms);
      p
  }

  /** The milliseconds a `--delay` value of the form digits-then-"ms" names. */
  function DelayMs(prop: string): Option<nat>
  {
    var digits := DigitPrefix(prop);
    if |digits| > 0 && prop[|digits|..] == "ms" then Some(DecimalValue(digits)) else None
  }

  /** A revealed entry: `--delay` is set and, once its timer has fired, the
      element is visible. No class other than `is-visible` changes. */
  function Reveal(el: Element, index: nat): (r: Element)
    ensures IsVisible in r.classes
    ensures r.classes - {IsVisible} == el.classes - {IsVisible}
    ensures r.style.Keys == el.style.Keys + {"--delay"}
    ensures forall p :: p in el.style && p != "--delay" ==> r.style[p] == el.style[p]
    ensures r.dataset == el.dataset && r.innerHtml == el.innerHtml
  {
    var d := StaggerDelay(el.dataset, index);
    AddClass(el.(style := el.style["--delay" := DelayProperty(d)]), IsVisible)
  }

  /** Without a usable `data-delay`, the `--delay` property of the entry at
      `index` reads back as exactly `index * 100` milliseconds. */
  lemma StaggeredPropertyReadsBack(el: Element, index: nat)
    requires "delay" !in el.dataset || el.dataset["delay"] == ""
    ensures DelayMs(Reveal(el, index).style["--delay"]) == Some(index * StaggerStep)
  {
  }

  /** A non-empty `data-delay` is copied into `--delay` verbatim. */
  lemma DataDelayIsKept(el: Element, index: nat)
    requires "delay" in el.dataset && el.dataset["delay"] != ""
    ensures Reveal(el, index).style["--delay"] == el.dataset["delay"] + "ms"
  {
  }

  /** Within one batch, entries without a `data-delay` are revealed in
      index order, each 100 milliseconds after the one before. */
  lemma StaggeredDelaysIncrease(a: Element, b: Element, i: nat, j: nat)
    requires "delay" !in a.dataset || a.dataset["delay"] == ""
    requires "delay" !in b.dataset || b.dataset["delay"] == ""
    requires i < j
    ensures var da := DelayMs(Reveal(a, i).style["--delay"]);
      var db := DelayMs(Reveal(b, j).style["--delay"]);
      da.Some? && db.Some? && db.value - da.value == (j - i) * StaggerStep
  {
  }

  // ---------------------------------------------------------------------
  // Reduced motion

  predicate Animated(el: Element)
  {
    "anim" in el.dataset
  }

  /** `handleReducedMotion`: when the user prefers reduced motion, the body
      gains `reduced-motion` and every `[data-anim]` element is shown at
      once; otherwise nothing changes. Returns the new body and elements. */
  function HandleReducedMotion(prefersReduced: bool, body: Element, elements: seq<Element>)
    : (r: (Element, seq<Element>))
    ensures |r.1| == |elements|
    ensures prefersReduced ==> ReducedMotion in r.0.classes
    ensures r.0.classes - {ReducedMotion} == body.classes - {ReducedMotion}
    ensures r.0.style == body.style && r.0.dataset == body.dataset && r.0.innerHtml == body.innerHtml
    ensures !prefersReduced ==> r.0 == body
    ensures forall k :: 0 <= k < |elements| ==>
      && (prefersReduced && Animated(elements[k]) ==> IsVisible in r.1[k].classes)
      && r.1[k].classes - {IsVisible} == elements[k].classes - {IsVisible}
      && (!prefersReduced || !Animated(elements[k]) ==> r.1[k] == elements[k])
      && r.1[k].style == elements[k].style && r.1[k].dataset == elements[k].dataset
      && r.1[k].innerHtml == elements[k].innerHtml
  {
    if !prefersReduced then (body, elements)
    else (AddClass(body, ReducedMotion), ShowAnimated(elements))
  }

  /** `querySelectorAll('[data-anim]').forEach(el => el.classList.add('is-visible'))`,
      stated over every element so that the others are seen to be untouched. */
  function ShowAnimated(elements: seq<Element>): (r: seq<Element>)
    ensures |r| == |elements|
    ensures forall k :: 0 <= k < |elements| ==>
      && (Animated(elements[k]) ==> IsVisible in r[k].classes)
      && r[k].classes - {IsVisible} == elements[k].classes - {IsVisible}
      && r[k].style == elements[k].style && r[k].dataset == elements[k].dataset
      && r[k].innerHtml == elements[k].innerHtml
      && (!Animated(elements[k]) ==> r[k] == elements[k])
  {
    seq(|elements|, k requires 0 <= k < |elements| =>
      if Animated(elements[k]) then AddClass(elements[k], IsVisible) else elements[k])
  }

  /** Handling reduced motion a second time changes nothing. */
  lemma ReducedMotionIdempotent(prefersReduced: bool, body: Element, elements: seq<Element>)
    ensures var once := HandleReducedMotion(prefersReduced, body, elements);
      HandleReducedMotion(prefersReduced, once.0, once.1) == once
  {
    var once := HandleReducedMotion(prefersReduced, body, elements);
    var twice := HandleReducedMotion(prefersReduced, once.0, once.1);
    if prefersReduced {
      assert twice.0 == once.0;
      forall k | 0 <= k < |elements| ensures twice.1[k] == once.1[k] {
        if Animated(elements[k]) {
          assert IsVisible in once.1[k].classes;
          assert once.1[k].classes + {IsVisible} == once.1[k].classes;
        }
      }
      assert twice.1 == once.1;
    }
  }
}

=== FILE: static_server.dfy ===
/** The request handler of the portfolio's static-file server.

    A request URL becomes a path by prefixing '.', with "/" standing for
    "./index.html"; an extensionless path that does not exist falls back to
    the same path plus ".html". The response is a fixed 404 page when the
    resolved path does not exist, a 500 when it exists but cannot be read,
    and otherwise the file's bytes under the content type its extension
    selects. Every response carries the same CORS and no-cache headers and an
    ETag; the ETag is `Math.random()` in the server and a parameter here.

    The filesystem is a map from the path strings the server hands to the
    operating system to what a read of that path yields: `existsSync` and
    `access` test membership, `readFile` returns the entry. A directory, an
    unreadable file, or a file removed between the existence check and the
    read are all `Unreadable`. */
module StaticServer {
  import opened Strings
  import NodePath
  import Mime

  newtype byte = x: int | 0 <= x < 256

  datatype Entry = Readable(content: seq<byte>) | Unreadable

  type FileSystem = map<string, Entry>

  /** The method is carried but never consulted: every method is served alike. */
  datatype Request = Request(httpMethod: string, url: string)

  datatype Body = Text(text: string) | Bytes(content: seq<byte>)

  datatype Response = Response(status: nat, headers: map<string, string>, body: Body)

  /** The headers set on every response before anything else happens. */
  const FixedHeaders: map<string, string> := map[
    "Access-Control-Allow-Origin" := "*",
    "Access-Control-Allow-Methods" := "GET, POST, PUT, DELETE, OPTIONS",
    "Access-Control-Allow-Headers" := "Content-Type, Authorization",
    "Cache-Control" := "no-cache, no-store, must-revalidate, private, max-age=0",
    "Pragma" := "no-cache",
    "Expires" := "0"
  ]

  const ETagHeader: string := "ETag"
  const ContentTypeHeader: string := "Content-Type"

  const NotFoundTitle: string := "404 - Page Not Found"

  /** The page served for every missing path, character for character as the
      template literal in the server writes it, split around the first
      occurrence of its title. */
  const NotFoundPage: string := NotFoundHead + NotFoundTitle + NotFoundTail

  const NotFoundHead: string :=
    "\n" +
    "                <!DOCTYPE html>\n" +
    "                <html>\n" +
    "                <head>\n" +
    "                    <title>"

  const NotFoundTail: string :=
    "</title>\n" +
    "                    <style>\n" +
    "                        body { font-family: Arial, sans-serif; text-align: center; margin-top: 50px; }\n" +
    "                        h1 { color: #333; }\n" +
    "                        a { color: #6366f1; text-decoration: none; }\n" +
    "                        a:hover { text-decoration: underline; }\n" +
    "                    </style>\n" +
    "                </head>\n" +
    "                <body>\n" +
    "                    <h1>" + NotFoundTitle + "</h1>\n" +
    "                    <p>The requested page could not be found.</p>\n" +
    "                    <a href=\"/\">Go back to home</a>\n" +
    "                </body>\n" +
    "                </html>\n" +
    "            "

  const ServerErrorText: string := "Internal Server Error"

  /** `s` occurs in `t` starting at index `k`. */
  predicate OccursAt(s: string, t: string, k: int)
  {
    0 <= k && k + |s| <= |t| && t[k..k + |s|] == s
  }

  /** `'.' + url`, with the root "/" replaced by the index document. */
  function CandidatePath(url: string): (c: string)
    ensures |c| > 0 && c[0] == '.'
    ensures url != "/" ==> c[1..] == url
  {
    var p := "." + url;
    if p == "./" then "./index.html" else p
  }

  /** The path the handler serves: the candidate, or the candidate plus
      ".html" when the candidate has no extension, does not exist, and the
      extended path does. */
  function ResolvePath(url: string, fs: FileSystem): (path: string)
    ensures var c := CandidatePath(url);
      path == c || (path == c + ".html" && NodePath.Extname(c) == "" && c !in fs && path in fs)
  {
    var c := CandidatePath(url);
    if NodePath.Extname(c) == "" && c !in fs then
      var html := c + ".html";
      if html in fs then html else c
    else c
  }

  /** The headers every response starts from: the fixed set plus the ETag. */
  function BaseHeaders(etag: string): (h: map<string, string>)
    ensures forall name :: name in FixedHeaders ==> name in h && h[name] == FixedHeaders[name]
    ensures ETagHeader in h && h[ETagHeader] == etag
    ensures ContentTypeHeader !in h
    ensures h.Keys == FixedHeaders.Keys + {ETagHeader}
  {
    FixedHeaders[ETagHeader := etag]
  }

  /** Every fixed header is present with its fixed value and the ETag is `etag`. */
  predicate CarriesFixedHeaders(r: Response, etag: string)
  {
    && (forall name :: name in FixedHeaders ==> name in r.headers && r.headers[name] == FixedHeaders[name])
    && ETagHeader in r.headers && r.headers[ETagHeader] == etag
  }

  /** The whole request handler, with `etag` standing for the random ETag. */
  function Handle(req: Request, fs: FileSystem, etag: string): (r: Response)
    ensures CarriesFixedHeaders(r, etag)
    ensures r.status == 200 || r.status == 404 || r.status == 500
    ensures var path := ResolvePath(req.url, fs);
      && (r.status == 404 <==> path !in fs)
      && (r.status == 404 ==>
            r.headers == BaseHeaders(etag)[ContentTypeHeader := "text/html"]
            && r.body == Text(NotFoundPage))
      && (r.status == 500 <==> path in fs && fs[path] == Unreadable)
      && (r.status == 500 ==> r.headers == BaseHeaders(etag) && r.body == Text(ServerErrorText))
      && (r.status == 200 ==>
            r.body.Bytes? && path in fs && fs[path] == Readable(r.body.content)
            && r.headers == BaseHeaders(etag)[ContentTypeHeader := Mime.ContentTypeFor(path)])
  {
    var path := ResolvePath(req.url, fs);
    var headers := BaseHeaders(etag);
    if path !in fs then
      Response(404, headers[ContentTypeHeader := "text/html"], Text(NotFoundPage))
    else
      match fs[path]
      case Unreadable => Response(500, headers, Text(ServerErrorText))
      case Readable(content) =>
        Response(200, headers[ContentTypeHeader := Mime.ContentTypeFor(path)], Bytes(content))
  }

  /** Only the root URL becomes the index document by substitution; the
      only other URL with that candidate is "/index.html" itself, and every
      other URL is just prefixed with '.' (so "/?x=1" becomes "./?x=1"). */
  lemma CandidateIsPrefixedUrl(url: string)
    ensures CandidatePath(url) == "./index.html" <==> (url == "/" || url == "/index.html")
    ensures url != "/" ==> CandidatePath(url) == "." + url
    ensures CandidatePath("/?x=1") == "./?x=1"
  {
    assert ("." + url)[1..] == url;
    assert "./index.html"[1..] == "/index.html";
    assert "." + "/?x=1" == "./?x=1";
  }

  /** A candidate with an extension is served as is, whatever the filesystem. */
  lemma ExtensionSuppressesFallback(url: string, fs: FileSystem)
    requires NodePath.Extname(CandidatePath(url)) != ""
    ensures ResolvePath(url, fs) == CandidatePath(url)
  {
  }

  /** An existing candidate is served as is, even without an extension:
      the exact path wins over its ".html" sibling. */
  lemma ExactPathWins(url: string, fs: FileSystem)
    requires CandidatePath(url) in fs
    ensures ResolvePath(url, fs) == CandidatePath(url)
  {
  }

  /** A missing extensionless candidate resolves to its ".html" sibling when
      that exists and stays unchanged otherwise. */
  lemma HtmlFallback(url: string, fs: FileSystem)
    requires var c := CandidatePath(url); NodePath.Extname(c) == "" && c !in fs
    ensures var c := CandidatePath(url);
      && (c + ".html" in fs ==> ResolvePath(url, fs) == c + ".html")
      && (c + ".html" !in fs ==> ResolvePath(url, fs) == c)
  {
  }

  /** The resolved path exists exactly when the candidate exists, or it has
      no extension and its ".html" sibling exists; otherwise the handler
      answers 404. */
  lemma ResolvedExistsIff(req: Request, fs: FileSystem, etag: string)
    ensures var c := CandidatePath(req.url);
      ResolvePath(req.url, fs) in fs <==> (c in fs || (NodePath.Extname(c) == "" && c + ".html" in fs))
    ensures var c := CandidatePath(req.url);
      Handle(req, fs, etag).status == 404 <==>
        (c !in fs && (NodePath.Extname(c) != "" || c + ".html" !in fs))
  {
  }

  /** The ".html" sibling of a candidate has extension ".html", unless the
      URL ends in '/': then the sibling's last component is the dot-file
      ".html", which has no extension. */
  lemma SiblingExtname(url: string)
    requires url != "/"
    ensures url == "" || url[|url| - 1] != '/' ==> NodePath.Extname(CandidatePath(url) + ".html") == ".html"
    ensures url != "" && url[|url| - 1] == '/' ==> NodePath.Extname(CandidatePath(url) + ".html") == ""
  {
    var c := CandidatePath(url);
    assert ("." + url)[1..] == url;
    assert c == "." + url;
    var p := c + ".html";
    if url == "" || url[|url| - 1] != '/' {
      NodePath.ExtnameOfAppended(c, ".html");
    } else {
      NodePath.TrimAt(p, |p|);
      assert p[..|p|] == p;
      NodePath.LastSegmentAt(p, |c|);
      assert p[|c|..] == ".html";
      NodePath.LastDotAt(".html", 0);
    }
  }

  /** The index document has an extension, so the fallback never applies to "/". */
  lemma IndexHasExtension()
    ensures NodePath.Extname("./index.html") == ".html"
  {
    assert "./index.html" == "./index" + ".html";
    NodePath.ExtnameOfAppended("./index", ".html");
  }

  /** A path reached through the ".html" fallback is served as text/html,
      except after a URL ending in '/', where it is served as
      application/octet-stream. */
  lemma FallbackContentType(url: string, fs: FileSystem)
    requires ResolvePath(url, fs) != CandidatePath(url)
    ensures url == "" || url[|url| - 1] != '/' ==> Mime.ContentTypeFor(ResolvePath(url, fs)) == "text/html"
    ensures url != "" && url[|url| - 1] == '/' ==> Mime.ContentTypeFor(ResolvePath(url, fs)) == Mime.Fallback
  {
    FallbackIsSibling(url, fs);
    SiblingContentType(url);
  }

  /** A fallback only happens away from the root, and lands on the sibling. */
  lemma FallbackIsSibling(url: string, fs: FileSystem)
    requires ResolvePath(url, fs) != CandidatePath(url)
    ensures url != "/" && ResolvePath(url, fs) == CandidatePath(url) + ".html"
  {
    RootResolvesToIndex(fs);
  }

  /** "/" always resolves to the index document, present or not. */
  lemma RootResolvesToIndex(fs: FileSystem)
    ensures CandidatePath("/") == "./index.html"
    ensures ResolvePath("/", fs) == "./index.html"
  {
    assert "." + "/" == "./";
    IndexHasExtension();
  }

  lemma SiblingContentType(url: string)
    requires url != "/"
    ensures url == "" || url[|url| - 1] != '/' ==> Mime.ContentTypeFor(CandidatePath(url) + ".html") == "text/html"
    ensures url != "" && url[|url| - 1] == '/' ==> Mime.ContentTypeFor(CandidatePath(url) + ".html") == Mime.Fallback
  {
    SiblingExtname(url);
    var p := CandidatePath(url) + ".html";
    if url == "" || url[|url| - 1] != '/' {
      Mime.HtmlIsTextHtml(p);
    } else {
      Mime.NoExtensionIsFallback(p);
    }
  }

  /** A filesystem as a disk presents it: every directory on the way to an
      entry is itself an entry, and a path ending in '/' names a directory,
      which exists but cannot be read as a file. */
  predicate DiskLike(fs: FileSystem)
  {
    forall p, k :: p in fs && 0 <= k < |p| && p[k] == '/' ==>
      p[..k + 1] in fs && fs[p[..k + 1]] == Unreadable
  }

  /** On a disk-like filesystem a URL ending in '/' never falls back: were
      its ".html" sibling present, the directory itself would be present. */
  lemma NoFallbackAfterSlash(url: string, fs: FileSystem)
    requires DiskLike(fs)
    requires url != "" && url[|url| - 1] == '/'
    ensures ResolvePath(url, fs) == CandidatePath(url)
  {
    if url == "/" {
      RootResolvesToIndex(fs);
    } else {
      var c := CandidatePath(url);
      assert c == "." + url;
      var p := c + ".html";
      if p in fs {
        assert p[|c| - 1] == '/';
        assert p[..|c|] == c;
      }
    }
  }

  /** On a disk-like filesystem a URL other than "/" that ends in '/' is
      never answered with content: the directory it names gives 500, and a
      missing one 404. */
  lemma SlashUrlIsNeverServed(req: Request, fs: FileSystem, etag: string)
    requires DiskLike(fs)
    requires req.url != "/" && req.url != "" && req.url[|req.url| - 1] == '/'
    ensures Handle(req, fs, etag).status == (if CandidatePath(req.url) in fs then 500 else 404)
  {
    NoFallbackAfterSlash(req.url, fs);
    var c := CandidatePath(req.url);
    assert c == "." + req.url;
    if c in fs {
      assert c[|c| - 1] == '/';
      assert c[..|c|] == c;
    }
  }

  /** The 404 body names the missing page and is the same whatever was asked. */
  lemma NotFoundIsFixed(req1: Request, req2: Request, fs: FileSystem, etag: string)
    requires Handle(req1, fs, etag).status == 404 && Handle(req2, fs, etag).status == 404
    ensures Handle(req1, fs, etag) == Handle(req2, fs, etag)
    ensures OccursAt(NotFoundTitle, Handle(req1, fs, etag).body.text, 106)
  {
    NotFoundPageNamesTitle();
  }

  /** The 404 page carries "404 - Page Not Found", first in its title. */
  lemma NotFoundPageNamesTitle()
    ensures OccursAt(NotFoundTitle, NotFoundPage, 106)
  {
    assert |NotFoundHead| == 106;
    assert NotFoundPage[106..106 + |NotFoundTitle|] == NotFoundTitle;
  }

  /** The method plays no part: all methods are answered identically. */
  lemma MethodIgnored(m1: string, m2: string, url: string, fs: FileSystem, etag: string)
    ensures Handle(Request(m1, url), fs, etag) == Handle(Request(m2, url), fs, etag)
  {
  }

  /** Two requests answered with different ETag values carry different
      ETags; that is all the random ETag guarantees. */
  lemma DistinctETags(req: Request, fs: FileSystem, e1: string, e2: string)
    requires e1 != e2
    ensures Handle(req, fs, e1).headers[ETagHeader] != Handle(req, fs, e2).headers[ETagHeader]
    ensures Handle(req, fs, e1).status == Handle(req, fs, e2).status
  {
  }

  /** No sanitisation: a URL climbing out of the site directory names a path
      outside it, and that path is served when it exists. */
  lemma TraversalIsServed(fs: FileSystem, content: seq<byte>, etag: string)
    requires "./../secret.txt" in fs && fs["./../secret.txt"] == Readable(content)
    ensures Handle(Request("GET", "/../secret.txt"), fs, etag).status == 200
    ensures Handle(Request("GET", "/../secret.txt"), fs, etag).body == Bytes(content)
  {
    var req := Request("GET", "/../secret.txt");
    assert CandidatePath(req.url) == "./../secret.txt";
    ExactPathWins(req.url, fs);
    ServesResolved(req, fs, etag, "./../secret.txt", content);
  }

  // ---------------------------------------------------------------------
  // Concrete requests

  /** A name with neither '.' nor '/' directly under a directory prefix has
      no extension. */
  lemma PlainNameHasNoExtension(dir: string, name: string)
    requires |dir| > 0 && dir[|dir| - 1] == '/'
    requires |name| > 0 && NodePath.Avoids(name, 0, |name|, '.') && NodePath.Avoids(name, 0, |name|, '/')
    ensures NodePath.Extname(dir + name) == ""
  {
    var p := dir + name;
    NodePath.TrimAt(p, |p|);
    assert p[..|p|] == p;
    NodePath.LastSegmentAt(p, |dir|);
    assert p[|dir|..] == name;
  }

  /** "/" with an index document: 200, text/html, the document's bytes. */
  lemma RootServesIndex(fs: FileSystem, content: seq<byte>, etag: string)
    requires "./index.html" in fs && fs["./index.html"] == Readable(content)
    ensures Handle(Request("GET", "/"), fs, etag)
      == Response(200, BaseHeaders(etag)[ContentTypeHeader := "text/html"], Bytes(content))
  {
    assert CandidatePath("/") == "./index.html";
    IndexHasExtension();
    Mime.HtmlIsTextHtml("./index.html");
  }

  /** The handler's answer once the path is known to resolve to a readable file. */
  lemma ServesResolved(req: Request, fs: FileSystem, etag: string, path: string, content: seq<byte>)
    requires ResolvePath(req.url, fs) == path
    requires path in fs && fs[path] == Readable(content)
    ensures Handle(req, fs, etag)
      == Response(200, BaseHeaders(etag)[ContentTypeHeader := Mime.ContentTypeFor(path)], Bytes(content))
  {
  }

  /** "/about" with only "about.html" on disk, for any plain name in place
      of "about": 200, text/html, the bytes of the ".html" file. */
  lemma ExtensionlessServesHtml(name: string, fs: FileSystem, content: seq<byte>, etag: string)
    requires |name| > 0 && NodePath.Avoids(name, 0, |name|, '.') && NodePath.Avoids(name, 0, |name|, '/')
    requires "./" + name !in fs
    requires "./" + name + ".html" in fs && fs["./" + name + ".html"] == Readable(content)
    ensures Handle(Request("GET", "/" + name), fs, etag)
      == Response(200, BaseHeaders(etag)[ContentTypeHeader := "text/html"], Bytes(content))
  {
    PlainNameResolves(name, fs);
    PlainNameSiblingIsHtml(name);
    ServesResolved(Request("GET", "/" + name), fs, etag, "./" + name + ".html", content);
  }

  lemma PlainNameResolves(name: string, fs: FileSystem)
    requires |name| > 0 && NodePath.Avoids(name, 0, |name|, '.') && NodePath.Avoids(name, 0, |name|, '/')
    requires "./" + name !in fs && "./" + name + ".html" in fs
    ensures ResolvePath("/" + name, fs) == "./" + name + ".html"
  {
    assert CandidatePath("/" + name) == "./" + name by {
      assert "." + ("/" + name) == "./" + name;
    }
    PlainNameHasNoExtension("./", name);
  }

  lemma PlainNameSiblingIsHtml(name: string)
    requires |name| > 0 && NodePath.Avoids(name, 0, |name|, '.') && NodePath.Avoids(name, 0, |name|, '/')
    ensures Mime.ContentTypeFor("./" + name + ".html") == "text/html"
  {
    NodePath.ExtnameOfAppended("./" + name, ".html");
    Mime.HtmlIsTextHtml("./" + name + ".html");
  }

  /** "/missing" with neither the name nor its ".html" sibling on disk:
      the 404 page. */
  lemma MissingIsNotFound(url: string, fs: FileSystem, etag: string)
    requires CandidatePath(url) !in fs && CandidatePath(url) + ".html" !in fs
    ensures var r := Handle(Request("GET", url), fs, etag);
      && r.status == 404 && r.headers[ContentTypeHeader] == "text/html"
      && r.body == Text(NotFoundPage) && OccursAt(NotFoundTitle, r.body.text, 106)
  {
    NotFoundPageNamesTitle();
  }

  /** A URL ending in a dotted suffix such as ".css" or ".bin", whose file
      exists, is served with the table entry of the lower-cased suffix, or
      application/octet-stream when the table has none. */
  lemma SuffixSelectsType(url: string, ext: string, fs: FileSystem, content: seq<byte>, etag: string)
    requires |url| > 0 && url[|url| - 1] != '/'
    requires |ext| >= 2 && ext[0] == '.' && NodePath.Avoids(ext, 1, |ext|, '.') && NodePath.Avoids(ext, 0, |ext|, '/')
    requires "." + url + ext in fs && fs["." + url + ext] == Readable(content)
    ensures Handle(Request("GET", url + ext), fs, etag)
      == Response(200, BaseHeaders(etag)[ContentTypeHeader := Mime.LookupExt(Lower(ext))], Bytes(content))
  {
    SuffixResolves(url, ext, fs);
    ServesResolved(Request("GET", url + ext), fs, etag, "." + url + ext, content);
  }

  lemma SuffixResolves(url: string, ext: string, fs: FileSystem)
    requires |url| > 0 && url[|url| - 1] != '/'
    requires |ext| >= 2 && ext[0] == '.' && NodePath.Avoids(ext, 1, |ext|, '.') && NodePath.Avoids(ext, 0, |ext|, '/')
    ensures ResolvePath(url + ext, fs) == "." + url + ext
    ensures Mime.ContentTypeFor("." + url + ext) == Mime.LookupExt(Lower(ext))
  {
    SuffixIsExtname(url, ext);
    SuffixIsCandidate(url, ext);
    ExtensionSuppressesFallback(url + ext, fs);
  }

  lemma SuffixIsCandidate(url: string, ext: string)
    requires |ext| >= 2
    ensures CandidatePath(url + ext) == "." + url + ext
  {
    assert "." + (url + ext) == "." + url + ext;
  }

  lemma SuffixIsExtname(url: string, ext: string)
    requires |url| > 0 && url[|url| - 1] != '/'
    requires |ext| >= 2 && ext[0] == '.' && NodePath.Avoids(ext, 1, |ext|, '.') && NodePath.Avoids(ext, 0, |ext|, '/')
    ensures NodePath.Extname("." + url + ext) == ext
  {
    var q := "." + url;
    assert q[|q| - 1] == url[|url| - 1];
    NodePath.ExtnameOfAppended(q, ext);
  }
}

=== FILE: strings.dfy ===
/** String primitives the modelled JavaScript relies on: ASCII lower-casing
    (`String.prototype.toLowerCase` on the characters that matter here),
    `split`/`join` on a one-character separator, and the decimal rendering of
    a non-negative integer that template literals produce. */
module Strings {

  predicate IsUpper(c: char) { 'A' <= c <= 'Z' }

  predicate IsDigit(c: char) { '0' <= c <= '9' }

  predicate AllDigits(s: string) { forall k :: 0 <= k < |s| ==> IsDigit(s[k]) }

  function LowerChar(c: char): char
  {
    if IsUpper(c) then (c as int + 32) as char else c
  }

  /** Lower-cases the ASCII letters of `s` and keeps every other character. */
  function Lower(s: string): (r: string)
    ensures |r| == |s|
    ensures forall k :: 0 <= k < |s| ==> r[k] == LowerChar(s[k])
    decreases |s|
  {
    if |s| == 0 then "" else [LowerChar(s[0])] + Lower(s[1..])
  }

  /** After lower-casing no ASCII upper-case letter is left, and a string
      without one is its own lower-case form. */
  lemma LowerRemovesUpper(s: string)
    ensures forall k :: 0 <= k < |s| ==> !IsUpper(Lower(s)[k])
    ensures (forall k :: 0 <= k < |s| ==> !IsUpper(s[k])) ==> Lower(s) == s
  {
  }

  /** Lower-casing never creates nor removes a non-letter such as '.' or '/'. */
  lemma LowerKeepsNonLetters(s: string, k: nat, c: char)
    requires k < |s| && !IsUpper(c) && !('a' <= c <= 'z')
    ensures Lower(s)[k] == c <==> s[k] == c
  {
  }

  /** Number of occurrences of `c` in `s`. */
  function Count(s: string, c: char): nat
    decreases |s|
  {
    if |s| == 0 then 0 else (if s[0] == c then 1 else 0) + Count(s[1..], c)
  }

  /** `s.split(sep)` for a one-character separator: the maximal runs between
      separators, in order, including the empty ones; `"".split(sep)` is `[""]`. */
  function Split(s: string, sep: char): (parts: seq<string>)
    ensures |parts| == Count(s, sep) + 1
    ensures forall k :: 0 <= k < |parts| ==> sep !in parts[k]
    decreases |s|
  {
    if |s| == 0 then [""]
    else
      var rest := Split(s[1..], sep);
      if s[0] == sep then [""] + rest
      else [[s[0]] + rest[0]] + rest[1..]
  }

  /** `parts.join(sep)`. */
  function Join(parts: seq<string>, sep: char): (s: string)
    ensures |parts| > 0 ==> parts[0] <= s
    ensures |parts| > 1 ==> |parts[0]| < |s| && s[|parts[0]|] == sep
    decreases |parts|
  {
    if |parts| == 0 then ""
    else if |parts| == 1 then parts[0]
    else parts[0] + [sep] + Join(parts[1..], sep)
  }

  /** Joining the pieces of a split gives the original string back. */
  lemma {:induction false} JoinSplit(s: string, sep: char)
    ensures Join(Split(s, sep), sep) == s
    decreases |s|
  {
    if |s| > 0 {
      var rest := Split(s[1..], sep);
      JoinSplit(s[1..], sep);
      if s[0] == sep {
        assert ([""] + rest)[1..] == rest;
        assert s == [sep] + s[1..];
      } else if |rest| == 1 {
        assert s == [s[0]] + s[1..];
      } else {
        var parts := [[s[0]] + rest[0]] + rest[1..];
        assert parts[1..] == rest[1..];
        assert Join(rest, sep) == rest[0] + [sep] + Join(rest[1..], sep);
        assert s == [s[0]] + s[1..];
      }
    }
  }

  /** Splitting a string whose head `a` holds no separator glues `a` to the
      first piece of the tail's split. */
  lemma {:induction false} SplitSeparatorFreeHead(a: string, t: string, sep: char)
    requires sep !in a
    ensures Split(a + t, sep) == [a + Split(t, sep)[0]] + Split(t, sep)[1..]
    decreases |a|
  {
    var x := Split(t, sep);
    if |a| == 0 {
      assert a + t == t;
      assert a + x[0] == x[0];
      assert x == [x[0]] + x[1..];
      assert Split(a + t, sep) == [a + x[0]] + x[1..];
    } else {
      var a' := a[1..];
      assert a + t == [a[0]] + (a' + t);
      assert (a + t)[1..] == a' + t;
      SplitSeparatorFreeHead(a', t, sep);
      var r := Split(a' + t, sep);
      assert r[0] == a' + x[0] && r[1..] == x[1..];
      assert Split(a + t, sep) == [[a[0]] + r[0]] + r[1..];
      assert [a[0]] + (a' + x[0]) == a + x[0];
    }
  }

  /** Splitting a join of separator-free pieces gives the pieces back. */
  lemma {:induction false} SplitJoin(parts: seq<string>, sep: char)
    requires |parts| >= 1
    requires forall k :: 0 <= k < |parts| ==> sep !in parts[k]
    ensures Split(Join(parts, sep), sep) == parts
    decreases |parts|
  {
    var p := parts[0];
    if |parts| == 1 {
      SplitSeparatorFreeHead(p, "", sep);
      assert p + "" == p;
    } else {
      var j := Join(parts[1..], sep);
      SplitJoin(parts[1..], sep);
      assert Join(parts, sep) == p + ([sep] + j);
      SplitSeparatorFreeHead(p, [sep] + j, sep);
      assert ([sep] + j)[1..] == j;
      assert Split([sep] + j, sep) == [""] + parts[1..];
      assert p + "" == p;
      assert parts == [p] + parts[1..];
    }
  }

  /** Joining two non-empty runs of pieces puts one separator between them. */
  lemma {:induction false} JoinAppend(a: seq<string>, b: seq<string>, sep: char)
    requires |a| >= 1 && |b| >= 1
    ensures Join(a + b, sep) == Join(a, sep) + [sep] + Join(b, sep)
    decreases |a|
  {
    assert (a + b)[0] == a[0];
    if |a| == 1 {
      assert (a + b)[1..] == b;
    } else {
      assert (a + b)[1..] == a[1..] + b;
      JoinAppend(a[1..], b, sep);
    }
  }

  function DigitChar(d: nat): char
    requires d < 10
  {
    ('0' as int + d) as char
  }

  function DigitValue(c: char): nat
    requires IsDigit(c)
  {
    c as int - '0' as int
  }

  /** The decimal text of `n`, as `${n}` renders a non-negative integer:
      at least one digit, only digits, no leading zero. */
  function NatToDecimal(n: nat): (s: string)
    ensures |s| >= 1
    ensures AllDigits(s)
    ensures s[0] == '0' ==> n == 0
    decreases n
  {
    if n < 10 then [DigitChar(n)] else NatToDecimal(n / 10) + [DigitChar(n % 10)]
  }

  /** The number a string of decimal digits denotes. */
  function DecimalValue(s: string): nat
    requires AllDigits(s)
    decreases |s|
  {
    if |s| == 0 then 0 else 10 * DecimalValue(s[..|s| - 1]) + DigitValue(s[|s| - 1])
  }

  /** Reading back the decimal text of `n` gives `n`. */
  lemma {:induction false} DecimalRoundTrip(n: nat)
    ensures DecimalValue(NatToDecimal(n)) == n
    decreases n
  {
    if n >= 10 {
      var s := NatToDecimal(n);
      assert s[..|s| - 1] == NatToDecimal(n / 10);
      DecimalRoundTrip(n / 10);
    }
  }

  /** The longest prefix of `s` made of decimal digits. */
  function DigitPrefix(s: string): (d: string)
    ensures d <= s && AllDigits(d)
    ensures |d| < |s| ==> !IsDigit(s[|d|])
    decreases |s|
  {
    if |s| > 0 && IsDigit(s[0]) then [s[0]] + DigitPrefix(s[1..]) else ""
  }

  /** The digit prefix of digits followed by a non-digit is exactly those digits. */
  lemma {:induction false} DigitPrefixOfDigits(d: string, rest: string)
    requires AllDigits(d)
    requires |rest| > 0 && !IsDigit(rest[0])
    ensures DigitPrefix(d + rest) == d
    decreases |d|
  {
    if |d| == 0 {
      assert d + rest == rest;
    } else {
      assert (d + rest)[1..] == d[1..] + rest;
      DigitPrefixOfDigits(d[1..], rest);
      assert d == [d[0]] + d[1..];
    }
  }
}

=== FILE: text_wrap.dfy ===
/** `wrapTextLines` of the page script: the element's inner HTML is split on
    single spaces, word number `i` is wrapped in a span whose inline style
    sets `--word-delay` to `i*50` milliseconds, the spans are joined with
    single spaces, and the element gains the class `split-text`.

    `UnwrapText` is the inverse used to state what the wrapping preserves: it
    reads the words back out of the markup, in order and unchanged. */
module TextWrap {
  import opened Strings
  import opened Wrappers
  import Dom

  /** Milliseconds between the animations of consecutive words. */
  const WordDelayStep: nat := 50

  const SpanOpen: string := "<span class=\"word\" style=\"--word-delay: "
  const SpanMid: string := "ms\">"
  const SpanClose: string := "</span>"

  /** The span for word number `index`, as the template literal builds it. */
  function Span(index: nat, word: string): string
  {
    SpanOpen + NatToDecimal(index * WordDelayStep) + SpanMid + word + SpanClose
  }

  /** `words.map((word, index) => Span(index, word))`. */
  function Spans(words: seq<string>): (spans: seq<string>)
    ensures |spans| == |words|
  {
    seq(|words|, i requires 0 <= i < |words| => Span(i, words[i]))
  }

  /** The new inner HTML for a text. */
  function WrapText(text: string): string
  {
    Join(Spans(Split(text, ' ')), ' ')
  }

  /** `wrapTextLines(element)`. */
  function WrapTextLines(el: Dom.Element): (r: Dom.Element)
    ensures r.classes == el.classes + {"split-text"}
    ensures r.style == el.style && r.dataset == el.dataset
    ensures UnwrapText(r.innerHtml) == Some(el.innerHtml)
    ensures Count(r.innerHtml, ' ') == 4 * Count(el.innerHtml, ' ') + 3
  {
    UnwrapWrap(el.innerHtml);
    WrapTextSpaces(el.innerHtml);
    Dom.AddClass(el.(innerHtml := WrapText(el.innerHtml)), "split-text")
  }

  // ---------------------------------------------------------------------
  // Reading the delay and the words back out of the markup

  /** The delay, in milliseconds, that a span's inline style sets. */
  function SpanDelay(span: string): Option<nat>
  {
    if |span| >= |SpanOpen| && span[..|SpanOpen|] == SpanOpen then
      var digits := DigitPrefix(span[|SpanOpen|..]);
      if |digits| > 0 then Some(DecimalValue(digits)) else None
    else None
  }

  /** The opening tag splits on its three spaces into these pieces. */
  const OpenPieces: seq<string> := ["<span", "class=\"word\"", "style=\"--word-delay:"]

  /** The last space-free piece of a span: delay digits, "ms\">", the word
      and the closing tag. */
  function TailPiece(index: nat, word: string): string
  {
    NatToDecimal(index * WordDelayStep) + SpanMid + word + SpanClose
  }

  /** The word inside the tail piece of span number `index`. */
  function UnwrapTail(index: nat, piece: string): Option<string>
  {
    var tag := NatToDecimal(index * WordDelayStep) + SpanMid;
    if |piece| >= |tag| + |SpanClose| && piece[..|tag|] == tag
       && piece[|piece| - |SpanClose|..] == SpanClose
    then Some(piece[|tag|..|piece| - |SpanClose|])
    else None
  }

  /** Reads consecutive spans, numbered from `index`, out of the pieces of
      a split on ' '; four pieces per span. */
  function UnwrapPieces(pieces: seq<string>, index: nat): Option<seq<string>>
    decreases |pieces|
  {
    if |pieces| == 0 then Some([])
    else if |pieces| < 4 || pieces[..3] != OpenPieces then None
    else
      match UnwrapTail(index, pieces[3])
      case None => None
      case Some(w) =>
        match UnwrapPieces(pieces[4..], index + 1)
        case None => None
        case Some(ws) => Some([w] + ws)
  }

  /** The text whose wrapping is `html`, or None when `html` is not one. */
  function UnwrapText(html: string): Option<string>
  {
    match UnwrapPieces(Split(html, ' '), 0)
    case None => None
    case Some(words) => Some(Join(words, ' '))
  }

  // ---------------------------------------------------------------------
  // Properties

  /** There is one span per element of `text.split(' ')`, word `i` sits
      unchanged in span `i`, and there are as many spans as spaces plus one. */
  lemma SpansOfText(text: string)
    ensures var words := Split(text, ' ');
      && |Spans(words)| == Count(text, ' ') + 1
      && Join(words, ' ') == text
      && forall i :: 0 <= i < |words| ==>
           Spans(words)[i] == SpanOpen + NatToDecimal(i * WordDelayStep) + SpanMid + words[i] + SpanClose
  {
    JoinSplit(text, ' ');
  }

  /** The span for word `index` sets a delay of `index * 50` milliseconds. */
  lemma SpanCarriesDelay(index: nat, word: string)
    ensures SpanDelay(Span(index, word)) == Some(index * WordDelayStep)
  {
    var dec := NatToDecimal(index * WordDelayStep);
    var span := Span(index, word);
    var rest := SpanMid + word + SpanClose;
    assert span == SpanOpen + (dec + rest);
    assert span[..|SpanOpen|] == SpanOpen;
    assert span[|SpanOpen|..] == dec + rest;
    assert rest[0] == 'm';
    DigitPrefixOfDigits(dec, rest);
    DecimalRoundTrip(index * WordDelayStep);
  }

  /** Later words get strictly later delays. */
  lemma WrappedDelaysIncrease(text: string, i: nat, j: nat)
    requires i < j < |Spans(Split(text, ' '))|
    ensures var spans := Spans(Split(text, ' '));
      && SpanDelay(spans[i]).Some? && SpanDelay(spans[j]).Some?
      && SpanDelay(spans[i]).value < SpanDelay(spans[j]).value
  {
    var words := Split(text, ' ');
    SpanCarriesDelay(i, words[i]);
    SpanCarriesDelay(j, words[j]);
  }

  /** Unwrapping a wrapped text gives the text back: every word survives,
      unchanged and in order. */
  lemma UnwrapWrap(text: string)
    ensures UnwrapText(WrapText(text)) == Some(text)
  {
    var words := Split(text, ' ');
    var pieces := PiecesFrom(words, 0);
    JoinSpansAsPieces(words, 0);
    assert Spans(words)[0..] == Spans(words);
    PiecesSpaceFree(words, 0);
    PiecesCount(words, 0);
    SplitJoin(pieces, ' ');
    UnwrapPiecesFrom(words, 0);
    assert words[0..] == words;
    JoinSplit(text, ' ');
  }

  /** Each word contributes four spaces, less the one join it does not need. */
  lemma WrapTextSpaces(text: string)
    ensures Count(WrapText(text), ' ') == 4 * Count(text, ' ') + 3
  {
    var words := Split(text, ' ');
    var pieces := PiecesFrom(words, 0);
    JoinSpansAsPieces(words, 0);
    assert Spans(words)[0..] == Spans(words);
    PiecesSpaceFree(words, 0);
    PiecesCount(words, 0);
    SplitJoin(pieces, ' ');
  }

  // ---------------------------------------------------------------------
  // The wrapped text as a join of space-free pieces

  function SpanPieces(index: nat, word: string): seq<string>
  {
    OpenPieces + [TailPiece(index, word)]
  }

  /** The pieces of spans `j`, `j + 1`, ... of `words`. */
  function PiecesFrom(words: seq<string>, j: nat): seq<string>
    requires j <= |words|
    decreases |words| - j
  {
    if j == |words| then [] else SpanPieces(j, words[j]) + PiecesFrom(words, j + 1)
  }

  predicate SpaceFree(parts: seq<string>)
  {
    forall k :: 0 <= k < |parts| ==> ' ' !in parts[k]
  }

  lemma SpanAsPieces(index: nat, word: string)
    ensures Span(index, word) == Join(SpanPieces(index, word), ' ')
  {
    var tail := TailPiece(index, word);
    var a, b, c := "<span", "class=\"word\"", "style=\"--word-delay:";
    assert SpanPieces(index, word) == [a, b, c, tail];
    JoinFour(a, b, c, tail);
    assert SpanOpen == a + " " + b + " " + c + " " by {
      OpenTagPieces();
    }
    SpanIsOpenPlusTail(index, word);
  }

  lemma OpenTagPieces()
    ensures SpanOpen == "<span" + " " + "class=\"word\"" + " " + "style=\"--word-delay:" + " "
  {
  }

  lemma SpanIsOpenPlusTail(index: nat, word: string)
    ensures Span(index, word) == SpanOpen + TailPiece(index, word)
  {
  }

  lemma JoinFour(a: string, b: string, c: string, d: string)
    ensures Join([a, b, c, d], ' ') == a + " " + b + " " + c + " " + d
  {
    assert [c, d][1..] == [d];
    assert Join([c, d], ' ') == c + " " + d;
    assert [b, c, d][1..] == [c, d];
    assert Join([b, c, d], ' ') == b + " " + (c + " " + d);
    assert [a, b, c, d][1..] == [b, c, d];
    assert Join([a, b, c, d], ' ') == a + " " + (b + " " + (c + " " + d));
  }

  lemma {:induction false} JoinSpansAsPieces(words: seq<string>, j: nat)
    requires j < |words|
    ensures Join(Spans(words)[j..], ' ') == Join(PiecesFrom(words, j), ' ')
    decreases |words| - j
  {
    var spans := Spans(words);
    SpanAsPieces(j, words[j]);
    if j == |words| - 1 {
      assert spans[j..] == [Span(j, words[j])];
      assert PiecesFrom(words, j) == SpanPieces(j, words[j]) + [];
      assert SpanPieces(j, words[j]) + [] == SpanPieces(j, words[j]);
    } else {
      JoinSpansAsPieces(words, j + 1);
      assert spans[j..][0] == Span(j, words[j]);
      assert spans[j..][1..] == spans[j + 1..];
      JoinAppend(SpanPieces(j, words[j]), PiecesFrom(words, j + 1), ' ');
    }
  }

  lemma {:induction false} PiecesSpaceFree(words: seq<string>, j: nat)
    requires j <= |words|
    requires forall k :: 0 <= k < |words| ==> ' ' !in words[k]
    ensures SpaceFree(PiecesFrom(words, j))
    decreases |words| - j
  {
    if j < |words| {
      PiecesSpaceFree(words, j + 1);
      var tail := TailPiece(j, words[j]);
      var dec := NatToDecimal(j * WordDelayStep);
      assert ' ' !in dec by {
        assert forall k :: 0 <= k < |dec| ==> IsDigit(dec[k]);
      }
      assert tail == dec + SpanMid + words[j] + SpanClose;
      assert ' ' !in tail;
      var ps := SpanPieces(j, words[j]);
      assert SpaceFree(ps);
      var all := ps + PiecesFrom(words, j + 1);
      forall k | 0 <= k < |all| ensures ' ' !in all[k] {
        if k >= |ps| {
          assert all[k] == PiecesFrom(words, j + 1)[k - |ps|];
        }
      }
    }
  }

  lemma {:induction false} PiecesCount(words: seq<string>, j: nat)
    requires j <= |words|
    ensures |PiecesFrom(words, j)| == 4 * (|words| - j)
    decreases |words| - j
  {
    if j < |words| {
      PiecesCount(words, j + 1);
    }
  }

  lemma UnwrapTailPiece(index: nat, word: string)
    ensures UnwrapTail(index, TailPiece(index, word)) == Some(word)
  {
    var tag := NatToDecimal(index * WordDelayStep) + SpanMid;
    var piece := TailPiece(index, word);
    assert piece == tag + word + SpanClose;
    assert piece[..|tag|] == tag;
    assert piece[|piece| - |SpanClose|..] == SpanClose;
    assert piece[|tag|..|piece| - |SpanClose|] == word;
  }

  lemma {:induction false} UnwrapPiecesFrom(words: seq<string>, j: nat)
    requires j <= |words|
    ensures UnwrapPieces(PiecesFrom(words, j), j) == Some(words[j..])
    decreases |words| - j
  {
    if j < |words| {
      var ps := PiecesFrom(words, j);
      var rest := PiecesFrom(words, j + 1);
      assert ps == SpanPieces(j, words[j]) + rest;
      assert ps[..3] == OpenPieces;
      assert ps[3] == TailPiece(j, words[j]);
      assert ps[4..] == rest;
      assert |ps| >= 4;
      UnwrapTailPiece(j, words[j]);
      assert UnwrapTail(j, ps[3]) == Some(words[j]);
      UnwrapPiecesFrom(words, j + 1);
      assert UnwrapPieces(ps[4..], j + 1) == Some(words[j + 1..]);
      assert UnwrapPieces(ps, j) == Some([words[j]] + words[j + 1..]);
      assert words[j..] == [words[j]] + words[j + 1..];
    } else {
      assert PiecesFrom(words, j) == [];
      assert words[j..] == [];
    }
  }
}

=== FILE: wrappers.dfy ===
/** Optional values, used where the modelled code may produce "nothing"
    (a missing `data-delay` attribute, a span that does not parse). */
module Wrappers {

  datatype Option<+T> = None | Some(value: T)
}
